=== FILE: README.md ===
# Open-addressing hash table with tombstones

A Dafny model of `hashtable.c`: a hash table from `size_t` keys to opaque
values, stored in one array of slots. Keys hash to themselves. Collisions
are resolved by linear probing: step `i` of the walk for `key` visits slot
`(key + i) % capacity`. Every walk stops after `capacity` steps. A slot is
`EMPTY`, `BUSY` with a key and a value, or `DELETED`. `DELETED` is a
tombstone: lookups walk past it and inserts may reuse it. The table keeps
no count of tombstones. A delete that finds its key turns that slot into
a tombstone, and a delete that does not find it changes nothing. A
tombstone goes away only when an insert reuses it or a resize (by growth
or shrinking, also after a delete) rebuilds the slots.

The model is functional. A table is `Table(slots, count)`: the capacity is
`|slots|` and `count` is the live-item count the source maintains. Each
operation is a pure function from the old table to the new one, and the
values are of any type `V`. Each probe loop becomes a recursion over the
step `i` (`FindStep` for lookup and delete, `InsertStep` for insertion).
That recursion stops at the same slots, for the same reasons, as the loop.

Modules:

- `Arith`: facts about Euclidean division and products.
- `Probing`: the identity hash, the linear probe and its inverse `Offset`.
  Within one lap of `capacity` steps, the walk visits every slot exactly
  once.
- `Primes`: `next_prime`, the capacity helper.
- `Wrappers`: `Option`.
- `HashTable`: the slots and the invariants, and every table operation:
  - `New`, `Get`, `Contains`;
  - `Place`, the placement loop of insertion, and `InsertUnbalanced`;
  - `Reinsert` and `Resize`;
  - `DeleteUnbalanced`, `BalanceSize`, `Insert`, `Delete`;
  - `Collect`.
- `TableProps`: properties relating several operations, and the abstract
  map a table represents (`Contents`: its busy items read in slot order, a
  later item winning).
- `TombstoneDefect`: a concrete run of the balanced operations in which a
  deleted key comes back.

Two invariants carry the proofs:

- `Counted`: `count` equals the number of busy slots.
- `Reachable`: the lookup invariant. No `Empty` slot lies on a stored
  key's walk before the slot that holds it, so a lookup that stops at the
  first `Empty` slot cannot miss a stored key.

`Valid` is both of these together with a non-zero capacity. Insert, delete,
resize and rebalance preserve both invariants. `UniqueKeys` (no key busy in
two slots) is preserved by delete and resize. Insert preserves it only in a
table without tombstones (`NoDeleted`), and the source does not keep it in
general (see below). The lemmas about lookups after insert and delete are
therefore stated for tables with unique keys (a deleted key, for one,
stays absent only then: `TableProps.DeleteThenAbsent`); the round trips
`InsertThenGet` and `InsertRoundTrip` hold for every table.

### The tombstone behaviour

Insertion claims the first `DELETED` slot on the walk, even when the same
key is still busy further along (`hashtable.c:84-98`). After that, the key
is busy in two slots. A delete removes only the first of them, and the
lookup then returns the older value.

`TombstoneDefect.StaleValueAfterDelete` shows this from an empty table of
capacity 2, for any values `x`, `y`, `z`:

1. insert `2 ↦ x`;
2. insert `0 ↦ y` (it lands in slot 1);
3. delete `2` (slot 0 becomes a tombstone);
4. insert `0 ↦ z` (it claims the tombstone);
5. delete `0`.

The lookup of `0` then returns `y`. The table before step 4 is valid with
unique keys, and step 4 is what breaks uniqueness. The rest of the model
keeps the source's behaviour.

The count follows the busy slots, so after step 4 it counts both copies of
`0`. Placing a key a second time right after the first never adds to
the count, tombstones or not
(`TableProps.PlaceTwiceKeepsCount`). A balanced insert can even lower it:
the table after step 4 is over half full, so the next insert of `0` grows
it first, the growth keeps one copy per key, and the count drops from 2 to
1 (`TombstoneDefect.InsertCollapsesCopies`).

### Where the comments and the code differ

- `next_prime` is commented as returning the smallest prime at or above
  `start`. The code instead returns the first candidate that no `d` in
  `2 ..= sqrt(start) + 1` divides, with the bound taken from `start`, not
  from the candidate. The model follows the code:
  - `Primes.NextPrimeSmallStarts` gives 0 for 0, 1 for 1 and 3 for 2.
  - `Primes.NextPrimeIsPrime` shows the result is prime whenever it is at
    least 2 and below the square of one more than the trial bound.

## Model

| member | source | states |
|---|---|---|
| Probing.Hash | hashtable.c:26 | Keys hash to themselves |
| Probing.Probe | hashtable.c:28-32 | The probed slot is always inside the table |
| Probing.ProbeInjective | hashtable.c:82-83 | Within one lap of `capacity` steps no slot is visited twice |
| Probing.ProbeCovers | hashtable.c:82-83 | Every slot is visited within one lap, at step `Offset` |
| Primes.Sqrt | hashtable.c:39 | The floor square root that stands in for `sqrtf`: `s*s <= n < (s+1)*(s+1)` |
| Primes.HasDivisorFrom | hashtable.c:41-46 | The inner loop breaks exactly when some `d` in `j ..= end` divides the candidate |
| Primes.NextPrimeFrom | hashtable.c:38-50 | The outer loop from candidate `i`: returns a candidate no later than the termination witness that passes trial division, and every candidate from `i` before it fails |
| Primes.NextPrime | hashtable.c:35-51 | The result is at least `start`, has no divisor in `2 ..= Sqrt(start)+1`, and every earlier candidate fails the trial, so the outer loop returns the first survivor |
| Primes.NextPrimeIsPrime | hashtable.c:34-51 | The result is a genuine prime when it lies in `2 .. (TrialEnd(start)+1)^2`; this covers `NextPrime(62) = 67` and `NextPrime(32) = 37` |
| Primes.NextPrimeDoubling31 | hashtable.c:34-51 | Growing a capacity of 31 lands on 67, and 67 is prime |
| Primes.NextPrimeSmallStarts | hashtable.c:34-51 | Not always the smallest prime: 0 gives 0, 1 gives 1, 2 gives 3 |
| HashTable.New | hashtable.c:53-61 | A fresh table has `capacity` empty slots, count 0, holds no key and satisfies every invariant |
| HashTable.FindStep | hashtable.c:162-175 | The walk returns the first step holding the key with no `Empty` or matching slot before it; when it returns nothing, every matching step lies behind an `Empty` slot |
| HashTable.FindComplete | hashtable.c:162-175 | Under the lookup invariant the walk reaches every stored key |
| HashTable.Get | hashtable.c:159-177 | Returns the value at the found step, or none when no step is found; a returned value is stored under the key; under the lookup invariant it succeeds iff the key is stored |
| HashTable.Contains | hashtable.c:196-198 | True only for stored keys, and for every stored key under the lookup invariant |
| HashTable.InsertStep | hashtable.c:82-99 | The insertion walk stops at the first step that holds the key or is `EMPTY`/`DELETED`; when it stops nowhere, no step is claimable |
| HashTable.Place | hashtable.c:76-100 | Fails (the fatal assertion) iff every slot is busy with another key; otherwise writes the key at the first claimable step, counts one more item iff that slot was not busy, and keeps the count and lookup invariants |
| HashTable.PlaceSucceeds | hashtable.c:82-100 | A table with fewer items than slots never reaches the fatal assertion |
| HashTable.PlaceKeepsUnique | hashtable.c:84-98 | Without tombstones, placement overwrites an existing key instead of duplicating it |
| HashTable.ReachableAfterTombstone | hashtable.c:141-143 | Turning a slot into a tombstone keeps the lookup invariant |
| HashTable.InsertUnbalanced | hashtable.c:69-101 | When full, grows to exactly `NextPrime(2 * capacity)` first; with room, it is exactly the single placement, keeps the capacity and adds at most one item; keeps the count and lookup invariants |
| HashTable.Reinsert | hashtable.c:108-113 | Re-inserting items into a fresh table gives a counted, reachable table without tombstones or duplicate keys and at most one slot per item |
| HashTable.Resize | hashtable.c:103-116 | The new table has exactly the requested capacity, no more items than before, no tombstones, unique keys and the lookup invariant |
| HashTable.DeleteUnbalanced | hashtable.c:134-152 | A key the walk does not find leaves the table unchanged; otherwise its found slot becomes a tombstone and the count drops by one; the invariants are kept |
| HashTable.BalanceSize | hashtable.c:118-127 | Over half full, grows to exactly `NextPrime(2 * capacity)` (at least twice); under a quarter full and above twice the floor, shrinks to exactly `NextPrime(capacity / 2)` (at least half, at least the floor); otherwise leaves the table alone; afterwards it is at most half full |
| HashTable.Insert | hashtable.c:129-132 | After insert the table is counted, non-empty, at most half full plus the new item, and still reachable |
| HashTable.Delete | hashtable.c:154-157 | After delete the table is counted, at most half full, no fuller than before and still reachable |
| HashTable.Collect | hashtable.c:179-194 | The copy loop yields exactly the busy items of the recursive reference `BusyItems`: one per busy slot (the count when counted), in slot order, and nothing else |
| TableProps.GetMatchesContents | hashtable.c:159-177 | With unique keys and the lookup invariant, lookup agrees with the table's contents map |
| TableProps.PlaceThenGet | hashtable.c:84-97 | After placement the lookup of the key returns the new value, in every table |
| TableProps.PlaceKeepsOtherLookups | hashtable.c:90-97 | Under the lookup invariant, placement leaves every other key's lookup unchanged |
| TableProps.InsertThenGet | hashtable.c:69-101 | Round trip: after an unbalanced insert, the lookup returns the inserted value |
| TableProps.PlaceCountsNewKeys | hashtable.c:84-96 | Without tombstones, placement adds to the count iff the key was not stored |
| TableProps.PlaceTwiceKeepsCount | hashtable.c:84-98 | The second placement of a key adds nothing to the count, in every table: its walk stops at the slot the first one wrote |
| TableProps.InsertUnbalancedLookups | hashtable.c:69-101 | With unique keys, an unbalanced insert updates the contents map at the key and nowhere else |
| TableProps.InsertUnbalancedKeepsUnique | hashtable.c:69-101 | Without tombstones, an unbalanced insert keeps keys unique |
| TableProps.ReinsertLookups | hashtable.c:108-113 | The rebuilt table's lookups follow the map of the re-inserted items |
| TableProps.ReinsertCount | hashtable.c:108-113 | The rebuilt table holds one item per distinct key |
| TableProps.ResizeContents | hashtable.c:103-116 | Resizing keeps the contents map of the old table |
| TableProps.ResizeKeepsTable | hashtable.c:103-116 | With unique keys, resizing keeps every lookup and the count |
| TableProps.DeleteKeepsOtherLookups | hashtable.c:134-152 | Deleting a key leaves every other key's lookup unchanged, in every counted table |
| TableProps.DeleteThenAbsent | hashtable.c:134-152 | With unique keys, a deleted key is held by no slot and its lookup fails |
| TableProps.DeleteIdempotent | hashtable.c:134-152 | With unique keys, deleting twice is deleting once |
| TableProps.BalanceKeepsLookups | hashtable.c:118-127 | With unique keys, rebalancing keeps every lookup and the count |
| TableProps.BalancedInsertPlaces | hashtable.c:129-132 | After rebalancing, insert is a single placement that never needs the growth step |
| TableProps.InsertRoundTrip | hashtable.c:129-132 | Round trip: after `hash_table_insert`, the lookup returns the inserted value on every table, duplicates and tombstones included |
| TableProps.InsertLookups | hashtable.c:129-132 | With unique keys, `hash_table_insert` maps the key to the value and changes no other lookup |
| TableProps.DeleteLookups | hashtable.c:154-157 | With unique keys, `hash_table_delete` makes the key absent and changes no other lookup |
| TombstoneDefect.PlaceAt | hashtable.c:82-97 | Placement writes the slot of the first claimable step |
| TombstoneDefect.DeleteAtHome | hashtable.c:137-145 | A key busy in its home slot is the one delete turns into a tombstone |
| TombstoneDefect.InsertIntoTombstone | hashtable.c:90-97 | An insert claims a tombstone in front of a busy slot already holding the same key |
| TombstoneDefect.InsertCollapsesCopies | hashtable.c:118-132 | Inserting `0` into the table holding two copies of `0` grows it first, and the count drops from 2 to 1 |
| TombstoneDefect.GrowthKeepsOneCopy | hashtable.c:103-127 | A table holding two copies of one key is over half full; rebalancing grows it and keeps a single copy, with count 1 |
| TombstoneDefect.StaleLookup | hashtable.c:162-175 | The lookup walks past a tombstone to an older copy of the key |
| TombstoneDefect.StaleValueAfterDelete | hashtable.c:84-98 | From a valid table with unique keys, insert then delete of a key leaves the key's older value visible |

## Left out

- `main`, `hash_table_debug_print` and the `printf` logging
  (`hashtable.c:92`, `106-107`): output only.
- `INITIAL_CAPACITY`: only `main` uses it.
- `malloc`, `memset` and `free` (`hashtable.c:53-65`, `114`): tables are
  values. `hash_table_new` is modelled as zeroed memory, that is all slots
  `EMPTY`.
- The allocation failure of `hash_table_collect` (`hashtable.c:181-184`):
  allocation is not modelled. The source's test there checks the
  out-pointer, not the allocated array, so it cannot see a failure anyway.
- The unused helper `mod` (`hashtable.c:63`).
- The commented-out quadratic probe (`hashtable.c:29-30`).
- `size_t` arithmetic: keys are unbounded naturals. The wrap-around of
  `start + i` and of `capacity * 2` on 64-bit machines is not modelled.
- Primes.NextPrime: `sqrtf` on a `float` is replaced by the exact integer
  floor square root. For very large `start`, float rounding in the source
  can give a different trial bound.
- The keys and values left in a tombstone (`hashtable.c:141-142` writes 0
  and `NULL`): `Deleted` carries neither, and no operation reads them.
- HashTable.InsertUnbalanced: requires a non-zero capacity, because with
  capacity 0 the source grows to `next_prime(0) = 0` and then stops at the
  fatal assertion.
- HashTable.Insert: requires a non-zero capacity, for the same reason.
- TableProps.DeleteThenAbsent: requires unique keys, because the source
  itself can break uniqueness (see `TombstoneDefect.StaleValueAfterDelete`).
- TableProps.DeleteIdempotent: requires unique keys, for the same reason.
- TableProps.InsertLookups: requires unique keys, for the same reason. Only
  the half about other keys needs them: `TableProps.InsertRoundTrip` gives
  the lookup of the inserted key on every table.
- TableProps.DeleteLookups: requires unique keys, for the same reason.
- TableProps.InsertUnbalancedLookups: requires unique keys, for the same
  reason. Only the half about other keys needs them: `TableProps.InsertThenGet`
  gives the lookup of the inserted key on every table.
- TableProps.GetMatchesContents: requires unique keys. With duplicates, the
  lookup returns the first copy on the walk, while the contents map keeps
  the last copy in slot order.
- TableProps.ResizeKeepsTable: requires unique keys, because resizing a
  table with duplicates keeps one copy per key and so lowers the count.
- TableProps.BalanceKeepsLookups: requires unique keys, for the same
  reason.
- HashTable.PlaceKeepsUnique: also requires no tombstones, because
  placement into a tombstone can duplicate a key.
- TableProps.InsertUnbalancedKeepsUnique: requires no tombstones, for the
  same reason.

=== FILE: arith.dfy ===
/** Facts about Euclidean division used by the probe walk and by next_prime. */
module Arith {

  /** The remainder of `q * m + r` is `r` whenever `r` is already reduced. */
  lemma ModOfMultiplePlus(a: int, m: int, q: int, r: int)
    requires m > 0 && 0 <= r < m && a == q * m + r
    ensures a % m == r && a / m == q
  {
    var q' := a / m;
    var r' := a % m;
    var d := q - q';
    assert d * m == r' - r by {
      assert a == q' * m + r';
      assert q * m - q' * m == (q - q') * m;
    }
    if d >= 1 {
      MulAtLeast(d, m);
    } else if d <= -1 {
      MulAtLeast(-d, m);
    }
  }

  /** A positive multiple of `m` is at least `m`. */
  lemma MulAtLeast(d: int, m: int)
    requires d >= 1 && m > 0
    ensures d * m >= m
  {
  }

  /** Products of naturals grow with both factors. */
  lemma MulMonotone(a: int, b: int, c: int, d: int)
    requires 0 <= a <= c && 0 <= b <= d
    ensures a * b <= c * d
  {
  }
}

=== FILE: defect.dfy ===
/**
  A concrete run of the balanced operations showing that a deleted key can
  come back. Insertion claims the first `Deleted` slot on the walk even when
  the key is still busy further along, so the table ends up with two busy
  slots for one key; deleting removes only the first, and the lookup then
  returns the older value. Capacity 2 keeps every step small.
 */
module TombstoneDefect {
  import opened Wrappers
  import opened Probing
  import opened HashTable
  import opened TableProps

  lemma BusyCountPair<V>(x: Slot<V>, y: Slot<V>)
    ensures BusyCount([x, y]) == (if x.Busy? then 1 else 0) + (if y.Busy? then 1 else 0)
  {
    var e := [x, y];
    assert e[..1] == [x];
    assert [x][..0] == [];
    assert BusyCount([x]) == if x.Busy? then 1 else 0;
  }

  /** A table of two slots holding at most one item is left alone by the
      load-factor policy. */
  lemma BalanceTwo<V>(t: Table<V>)
    requires |t.slots| == 2 && Counted(t) && t.count <= 1
    ensures BalanceSize(t) == t
  {
  }

  lemma InsertTwo<V>(t: Table<V>, key: nat, value: V)
    requires |t.slots| == 2 && Counted(t) && t.count <= 1
    ensures Place(t, key, value).Some? && Insert(t, key, value) == Place(t, key, value).value
  {
    BalanceTwo(t);
    assert Insert(t, key, value) == InsertUnbalanced(t, key, value);
  }

  /** Placement writes the slot of the first claimable step `n`. */
  lemma PlaceAt<V>(t: Table<V>, key: nat, value: V, n: nat)
    requires ClaimableFrom(t.slots, key, 0, n)
    ensures Place(t, key, value) == Some(Table(
      t.slots[Probe(Hash(key), n, |t.slots|) := Busy(key, value)],
      if At(t.slots, key, n).Busy? then t.count else t.count + 1))
  {
    var c := Probe(Hash(key), n, |t.slots|);
    assert !(t.slots[c].Busy? && t.slots[c].key != key);
    var r := Place(t, key, value);
    var m :| && ClaimableFrom(t.slots, key, 0, m)
             && r.value.slots == t.slots[Probe(Hash(key), m, |t.slots|) := Busy(key, value)]
             && r.value.count == if At(t.slots, key, m).Busy? then t.count else t.count + 1;
    ClaimableUnique(t.slots, key, n, m);
  }

  /** A key busy in its home slot is what the delete walk finds first. */
  lemma DeleteAtHome<V>(t: Table<V>, key: nat)
    requires Counted(t) && |t.slots| > 0 && HoldsKey(t.slots[Hash(key) % |t.slots|], key)
    ensures var r := DeleteUnbalanced(t, key);
            r.slots == t.slots[Hash(key) % |t.slots| := Deleted] && r.count + 1 == t.count
  {
    assert Found(t.slots, key, 0);
  }

  lemma InsertFirst<V>(x: V)
    ensures Insert(New<V>(2), 2, x) == Table([Busy(2, x), Empty], 1)
  {
    var e: seq<Slot<V>> := [Empty, Empty];
    var t := Table(e, 0);
    assert New<V>(2) == t;
    assert Counted(t) by {
      BusyCountPair<V>(Empty, Empty);
    }
    assert ClaimableFrom(e, 2, 0, 0) by {
      assert Probe(2, 0, 2) == 0;
    }
    assert Insert(t, 2, x) == Place(t, 2, x).value by {
      InsertTwo(t, 2, x);
    }
    assert Place(t, 2, x) == Some(Table([Busy(2, x), Empty], 1)) by {
      PlaceAt(t, 2, x, 0);
      assert Probe(2, 0, 2) == 0;
      assert e[0 := Busy(2, x)] == [Busy(2, x), Empty];
    }
  }

  lemma InsertColliding<V>(x: V, y: V)
    ensures Counted(Table([Busy(2, x), Empty], 1))
    ensures Insert(Table([Busy(2, x), Empty], 1), 0, y) == Table([Busy(2, x), Busy(0, y)], 2)
  {
    var e: seq<Slot<V>> := [Busy(2, x), Empty];
    var t := Table(e, 1);
    assert Counted(t) by {
      BusyCountPair(Busy(2, x), Empty);
    }
    assert ClaimableFrom(e, 0, 0, 1) by {
      assert Probe(0, 0, 2) == 0 && Probe(0, 1, 2) == 1;
    }
    assert Insert(t, 0, y) == Place(t, 0, y).value by {
      InsertTwo(t, 0, y);
    }
    assert Place(t, 0, y) == Some(Table([Busy(2, x), Busy(0, y)], 2)) by {
      PlaceAt(t, 0, y, 1);
      assert Probe(0, 1, 2) == 1;
      assert e[1 := Busy(0, y)] == [Busy(2, x), Busy(0, y)];
    }
  }

  /** Deleting the key in slot 0 leaves a tombstone and the other item. */
  lemma DeleteSlotZero<V>(k: nat, x: V, y: V)
    requires k % 2 == 0
    ensures Counted(Table([Busy(k, x), Busy(0, y)], 2))
    ensures Delete(Table([Busy(k, x), Busy(0, y)], 2), k) == Table([Deleted, Busy(0, y)], 1)
  {
    var e: seq<Slot<V>> := [Busy(k, x), Busy(0, y)];
    var d: seq<Slot<V>> := [Deleted, Busy(0, y)];
    assert Counted(Table(e, 2)) by {
      BusyCountPair(Busy(k, x), Busy(0, y));
    }
    assert DeleteUnbalanced(Table(e, 2), k) == Table(d, 1) by {
      DeleteAtHome(Table(e, 2), k);
      assert e[0 := Deleted] == d;
    }
    assert Counted(Table(d, 1)) by {
      BusyCountPair(Deleted, Busy(0, y));
    }
    BalanceTwo(Table(d, 1));
  }

  lemma InsertIntoTombstone<V>(y: V, z: V)
    ensures Counted(Table([Deleted, Busy(0, y)], 1))
    ensures Insert(Table([Deleted, Busy(0, y)], 1), 0, z) == Table([Busy(0, z), Busy(0, y)], 2)
  {
    var e: seq<Slot<V>> := [Deleted, Busy(0, y)];
    var t := Table(e, 1);
    assert Counted(t) by {
      BusyCountPair(Deleted, Busy(0, y));
    }
    assert ClaimableFrom(e, 0, 0, 0) by {
      assert Probe(0, 0, 2) == 0;
    }
    assert Insert(t, 0, z) == Place(t, 0, z).value by {
      InsertTwo(t, 0, z);
    }
    assert Place(t, 0, z) == Some(Table([Busy(0, z), Busy(0, y)], 2)) by {
      PlaceAt(t, 0, z, 0);
      assert Probe(0, 0, 2) == 0;
      assert e[0 := Busy(0, z)] == [Busy(0, z), Busy(0, y)];
    }
  }

  /**
    The next balanced insert of 0 into the table with two copies of key 0
    counts one item, not two: the table is over half full, so it grows
    first, the growth keeps one copy of each key, and the insert then
    overwrites that copy.
   */
  lemma InsertCollapsesCopies<V>(y: V, z: V, w: V)
    ensures Counted(Table([Busy(0, z), Busy(0, y)], 2))
    ensures Insert(Table([Busy(0, z), Busy(0, y)], 2), 0, w).count == 1
  {
    var t := Table([Busy(0, z), Busy(0, y)], 2);
    GrowthKeepsOneCopy(t, 0, z, y);
    var t1 := BalanceSize(t);
    assert Insert(t, 0, w) == Place(t1, 0, w).value by {
      BalancedInsertPlaces(t, 0, w);
    }
    PlaceCountsNewKeys(t1, 0, w);
  }

  /** Growing a table of two copies of one key keeps a single copy. */
  lemma GrowthKeepsOneCopy<V>(t: Table<V>, key: nat, a: V, b: V)
    requires t.slots == [Busy(key, a), Busy(key, b)] && t.count == 2
    ensures Counted(t)
    ensures var t1 := BalanceSize(t);
      && t1.count == 1 && HasKey(t1.slots, key) && Reachable(t1.slots) && NoDeleted(t1.slots)
  {
    var e := t.slots;
    assert Counted(t) by {
      BusyCountPair(Busy(key, a), Busy(key, b));
    }
    var cap := Primes.NextPrime(4);
    assert BalanceSize(t) == Resize(t, cap);
    var items := BusyItems(e);
    assert items == [Item(key, a), Item(key, b)] by {
      assert e[..1] == [Busy(key, a)];
      assert [Busy(key, a)][..0] == [];
      assert BusyItems([Busy(key, a)]) == [Item(key, a)];
    }
    assert Resize(t, cap).count == 1 by {
      ReinsertCount(cap, items);
      assert ToMap(items).Keys == {key};
    }
    assert HasKey(Resize(t, cap).slots, key) by {
      ResizeContents(t, cap, key);
      assert key in Contents(e);
    }
  }

  /** Past the tombstone the walk for 0 still finds the older value. */
  lemma StaleLookup<V>(y: V)
    ensures Get(Table([Deleted, Busy(0, y)], 1), 0) == Some(y)
  {
    var e: seq<Slot<V>> := [Deleted, Busy(0, y)];
    assert At(e, 0, 0) == Deleted by {
      assert Probe(0, 0, 2) == 0;
    }
    assert At(e, 0, 1) == Busy(0, y) by {
      assert Probe(0, 1, 2) == 1;
    }
    assert Found(e, 0, 1);
  }

  /** The only busy slot of the tombstone table is reached past the tombstone. */
  lemma TombstoneTableReachable<V>(y: V)
    ensures Reachable<V>([Deleted, Busy(0, y)])
  {
    var d: seq<Slot<V>> := [Deleted, Busy(0, y)];
    forall c | 0 <= c < |d| && d[c].Busy?
      ensures ClearBefore(d, d[c].key, StepOf(d, d[c].key, c))
    {
      assert c == 1 && d[c].key == 0;
      assert StepOf(d, 0, 1) == 1 by {
        assert Offset(0, 1, 2) == 1;
      }
      forall e | 0 <= e < 1
        ensures !At(d, 0, e).Empty?
      {
        assert Probe(0, e, 2) == 0;
      }
    }
  }

  /** The table reached after the first delete is valid with unique keys. */
  lemma TombstoneTableValid<V>(y: V)
    ensures Valid(Table([Deleted, Busy(0, y)], 1))
    ensures UniqueKeys<V>([Deleted, Busy(0, y)])
  {
    var d: seq<Slot<V>> := [Deleted, Busy(0, y)];
    assert Counted(Table(d, 1)) by {
      BusyCountPair(Deleted, Busy(0, y));
    }
    assert Reachable(d) by {
      TombstoneTableReachable(y);
    }
    assert UniqueKeys(d) by {
      assert !d[0].Busy?;
    }
  }

  /**
    From an empty table of capacity 2: insert 2 with `x`, insert 0 with `y`
    (it collides and lands in slot 1), delete 2 (slot 0 becomes a tombstone),
    insert 0 again with `z` (it claims the tombstone, so 0 is now busy
    twice), delete 0. The lookup of 0 then returns `y`, the value of the
    first insert, although the last operation on 0 deleted it. The table
    before the second insert of 0 is valid with unique keys; that insert is
    what breaks uniqueness.
   */
  lemma StaleValueAfterDelete<V>(x: V, y: V, z: V)
    ensures var t3 := Delete(Insert(Insert(New<V>(2), 2, x), 0, y), 2);
            var t4 := Insert(t3, 0, z);
            && Valid(t3) && UniqueKeys(t3.slots)
            && t4 == Table([Busy(0, z), Busy(0, y)], 2)
            && !UniqueKeys(t4.slots)
            && Get(Delete(t4, 0), 0) == Some(y)
  {
    var t1 := Insert(New<V>(2), 2, x);
    assert t1 == Table([Busy(2, x), Empty], 1) by {
      InsertFirst(x);
    }
    var t2 := Insert(t1, 0, y);
    assert t2 == Table([Busy(2, x), Busy(0, y)], 2) by {
      InsertColliding(x, y);
    }
    var t3 := Delete(t2, 2);
    var d: seq<Slot<V>> := [Deleted, Busy(0, y)];
    assert t3 == Table(d, 1) by {
      DeleteSlotZero(2, x, y);
    }
    assert Valid(t3) && UniqueKeys(t3.slots) by {
      TombstoneTableValid(y);
    }
    var t4 := Insert(t3, 0, z);
    assert t4 == Table([Busy(0, z), Busy(0, y)], 2) by {
      InsertIntoTombstone(y, z);
    }
    assert !UniqueKeys(t4.slots) by {
      assert t4.slots[0].key == t4.slots[1].key;
    }
    assert Delete(t4, 0) == Table(d, 1) by {
      DeleteSlotZero(0, z, y);
    }
    StaleLookup(y);
  }
}

=== FILE: hashtable.dfy ===
/**
  An open-addressing hash table from natural-number keys to values of any
  type `V`. Keys hash to themselves and collisions are resolved by linear
  probing: step `i` of the walk for `key` visits slot `(key + i) % capacity`.
  A slot is `Empty` (never used since the last resize), `Busy` with a key and
  a value, or `Deleted` (a tombstone left by a delete).

  Each operation of the table is a pure function from the old table to the
  new one; a probe loop of `hashtable.c` becomes a recursion over the step `i`
  that stops after `capacity` steps, exactly like the loop's safeguard.
 */
module HashTable {
  import opened Wrappers
  import opened Probing
  import opened Primes

  /** Shrinking stops once the capacity is at most twice this. */
  const MIN_CAPACITY: nat := 16

  datatype Slot<V> = Empty | Busy(key: nat, value: V) | Deleted

  /** A key/value pair copied out of a busy slot. */
  datatype Item<V> = Item(key: nat, value: V)

  /** The slot array (its length is the capacity) and the live-item count. */
  datatype Table<V> = Table(slots: seq<Slot<V>>, count: nat)

  // ---------------------------------------------------------------------
  // Slots, walks and the invariants of a table
  // ---------------------------------------------------------------------

  predicate HoldsKey<V>(s: Slot<V>, key: nat)
  {
    s.Busy? && s.key == key
  }

  /** The slot visited at step `i` of the walk for `key`. */
  function At<V>(slots: seq<Slot<V>>, key: nat, i: nat): Slot<V>
    requires i < |slots|
  {
    slots[Probe(Hash(key), i, |slots|)]
  }

  /** The step at which the walk for `key` reaches slot `c`. */
  function StepOf<V>(slots: seq<Slot<V>>, key: nat, c: nat): (i: nat)
    requires c < |slots|
    ensures i < |slots| && At(slots, key, i) == slots[c]
  {
    ProbeCovers(Hash(key), c, |slots|);
    Offset(Hash(key), c, |slots|)
  }

  predicate HasKey<V>(slots: seq<Slot<V>>, key: nat)
  {
    exists c :: 0 <= c < |slots| && HoldsKey(slots[c], key)
  }

  /** No `Empty` slot among the first `n` steps of the walk for `key`. */
  predicate ClearBefore<V>(slots: seq<Slot<V>>, key: nat, n: nat)
    requires n <= |slots|
  {
    forall e :: 0 <= e < n ==> !At(slots, key, e).Empty?
  }

  /**
    The lookup invariant: no `Empty` slot precedes a busy slot on the walk
    of that slot's key, so a lookup that stops at the first `Empty` slot
    cannot miss a stored key.
   */
  predicate Reachable<V>(slots: seq<Slot<V>>)
  {
    forall c :: 0 <= c < |slots| && slots[c].Busy? ==>
      ClearBefore(slots, slots[c].key, StepOf(slots, slots[c].key, c))
  }

  predicate UniqueKeys<V>(slots: seq<Slot<V>>)
  {
    forall c, d :: 0 <= c < |slots| && 0 <= d < |slots| && c != d && slots[c].Busy? && slots[d].Busy?
      ==> slots[c].key != slots[d].key
  }

  predicate NoDeleted<V>(slots: seq<Slot<V>>)
  {
    forall c :: 0 <= c < |slots| ==> !slots[c].Deleted?
  }

  /** The items of the busy slots, in ascending slot order. */
  function BusyItems<V>(slots: seq<Slot<V>>): (items: seq<Item<V>>)
    ensures |items| <= |slots|
  {
    if |slots| == 0 then []
    else
      var last := slots[|slots| - 1];
      BusyItems(slots[..|slots| - 1]) + (if last.Busy? then [Item(last.key, last.value)] else [])
  }

  function BusyCount<V>(slots: seq<Slot<V>>): nat
  {
    |BusyItems(slots)|
  }

  /** The stored count is the number of busy slots. */
  predicate Counted<V>(t: Table<V>)
  {
    t.count == BusyCount(t.slots)
  }

  predicate Valid<V>(t: Table<V>)
  {
    |t.slots| > 0 && Counted(t) && Reachable(t.slots)
  }

  lemma BusyCountUpdate<V>(s: seq<Slot<V>>, c: nat, x: Slot<V>)
    requires c < |s|
    ensures BusyCount(s[c := x]) + (if s[c].Busy? then 1 else 0)
         == BusyCount(s) + (if x.Busy? then 1 else 0)
    decreases |s|
  {
    var s' := s[c := x];
    var n := |s|;
    if c == n - 1 {
      assert s'[..n - 1] == s[..n - 1];
    } else {
      assert s'[..n - 1] == s[..n - 1][c := x];
      BusyCountUpdate(s[..n - 1], c, x);
    }
  }

  lemma AllBusyCount<V>(s: seq<Slot<V>>)
    requires forall c :: 0 <= c < |s| ==> s[c].Busy?
    ensures BusyCount(s) == |s|
  {
    if |s| > 0 {
      AllBusyCount(s[..|s| - 1]);
    }
  }

  lemma NoneBusyCount<V>(s: seq<Slot<V>>)
    requires forall c :: 0 <= c < |s| ==> !s[c].Busy?
    ensures BusyCount(s) == 0
  {
    if |s| > 0 {
      NoneBusyCount(s[..|s| - 1]);
    }
  }

  /** Writing a non-`Empty` slot keeps every walk's prefix free of `Empty`. */
  lemma ClearBeforeUpdate<V>(s: seq<Slot<V>>, c0: nat, x: Slot<V>, key: nat, n: nat)
    requires c0 < |s| && n <= |s| && !x.Empty? && ClearBefore(s, key, n)
    ensures ClearBefore(s[c0 := x], key, n)
  {
    var s' := s[c0 := x];
    forall e | 0 <= e < n
      ensures !At(s', key, e).Empty?
    {
      assert At(s', key, e) == if Probe(Hash(key), e, |s|) == c0 then x else At(s, key, e);
    }
  }

  /** Writing a non-`Empty` slot keeps the lookup invariant, as long as a
      busy slot written is itself reachable on its key's walk. */
  lemma ReachableUpdate<V>(s: seq<Slot<V>>, c0: nat, x: Slot<V>)
    requires Reachable(s) && c0 < |s| && !x.Empty?
    requires x.Busy? ==> ClearBefore(s, x.key, StepOf(s, x.key, c0))
    ensures Reachable(s[c0 := x])
  {
    var s' := s[c0 := x];
    forall c | 0 <= c < |s'| && s'[c].Busy?
      ensures ClearBefore(s', s'[c].key, StepOf(s', s'[c].key, c))
    {
      var k := s'[c].key;
      assert StepOf(s', k, c) == StepOf(s, k, c);
      ClearBeforeUpdate(s, c0, x, k, StepOf(s, k, c));
    }
  }

  /** Overwriting a slot with a non-busy one keeps keys unique. */
  lemma UniqueUpdate<V>(s: seq<Slot<V>>, c0: nat, x: Slot<V>)
    requires c0 < |s| && !x.Busy?
    ensures UniqueKeys(s) ==> UniqueKeys(s[c0 := x])
  {
  }

  /** A tombstone keeps the lookup invariant. */
  lemma ReachableAfterTombstone<V>(s: seq<Slot<V>>, c0: nat)
    requires c0 < |s|
    ensures Reachable(s) ==> Reachable(s[c0 := Deleted])
  {
    if Reachable(s) {
      ReachableUpdate(s, c0, Deleted);
    }
  }

  // ---------------------------------------------------------------------
  // Lookup (hash_table_get, hash_table_contains)
  // ---------------------------------------------------------------------

  /**
    Step `n` is where a lookup of `key` starting at step `i` succeeds:
    the slot there holds `key`, and every step before it is neither `Empty`
    nor a slot holding `key`.
   */
  predicate FoundFrom<V>(slots: seq<Slot<V>>, key: nat, i: nat, n: nat)
  {
    && i <= n < |slots|
    && HoldsKey(At(slots, key, n), key)
    && forall e :: i <= e < n ==> !HoldsKey(At(slots, key, e), key) && !At(slots, key, e).Empty?
  }

  predicate Found<V>(slots: seq<Slot<V>>, key: nat, n: nat)
  {
    FoundFrom(slots, key, 0, n)
  }

  lemma FoundUnique<V>(slots: seq<Slot<V>>, key: nat, n: nat, m: nat)
    requires Found(slots, key, n) && Found(slots, key, m)
    ensures n == m
  {
  }

  /** Two claimable-first steps of one walk are the same step. */
  lemma ClaimableUnique<V>(slots: seq<Slot<V>>, key: nat, n: nat, m: nat)
    requires ClaimableFrom(slots, key, 0, n) && ClaimableFrom(slots, key, 0, m)
    ensures n == m
  {
  }

  /** The lookup loop from step `i`: stop at a slot holding `key` (found) or
      at an `Empty` slot (absent); give up after the last step. */
  function FindStep<V>(slots: seq<Slot<V>>, key: nat, i: nat): (r: Option<nat>)
    ensures r.Some? ==> FoundFrom(slots, key, i, r.value)
    ensures r.None? ==> forall m :: i <= m < |slots| && HoldsKey(At(slots, key, m), key) ==>
      exists e :: i <= e < m && At(slots, key, e).Empty?
    decreases |slots| - i
  {
    if i >= |slots| then None
    else if HoldsKey(At(slots, key, i), key) then Some(i)
    else if At(slots, key, i).Empty? then None
    else FindStep(slots, key, i + 1)
  }

  lemma NotFound<V>(slots: seq<Slot<V>>, key: nat)
    requires FindStep(slots, key, 0).None?
    ensures forall n :: !Found(slots, key, n)
  {
  }

  lemma FoundOnly<V>(slots: seq<Slot<V>>, key: nat, n: nat)
    requires Found(slots, key, n)
    ensures forall m :: Found(slots, key, m) ==> m == n
  {
  }

  /** Under the lookup invariant the walk reaches every stored key. */
  lemma FindComplete<V>(slots: seq<Slot<V>>, key: nat)
    ensures Reachable(slots) && HasKey(slots, key) ==> FindStep(slots, key, 0).Some?
  {
    if Reachable(slots) && HasKey(slots, key) {
      var c :| 0 <= c < |slots| && HoldsKey(slots[c], key);
      var m := StepOf(slots, key, c);
      assert ClearBefore(slots, key, m);
      assert HoldsKey(At(slots, key, m), key);
    }
  }

  /**
    hash_table_get: the value of the first slot holding `key` on its walk,
    unless an `Empty` slot comes first. It finds every stored key when the
    lookup invariant holds.
   */
  function Get<V>(t: Table<V>, key: nat): (r: Option<V>)
    ensures forall n :: Found(t.slots, key, n) ==> r == Some(At(t.slots, key, n).value)
    ensures (forall n :: !Found(t.slots, key, n)) ==> r == None
    ensures r.Some? ==> exists c :: 0 <= c < |t.slots| && t.slots[c] == Busy(key, r.value)
    ensures Reachable(t.slots) ==> (r.Some? <==> HasKey(t.slots, key))
  {
    FindComplete(t.slots, key);
    match FindStep(t.slots, key, 0)
    case Some(n) =>
      assert t.slots[Probe(Hash(key), n, |t.slots|)] == Busy(key, At(t.slots, key, n).value);
      Some(At(t.slots, key, n).value)
    case None => None
  }

  /** hash_table_contains. */
  function Contains<V>(t: Table<V>, key: nat): (b: bool)
    ensures b ==> HasKey(t.slots, key)
    ensures Reachable(t.slots) ==> (b <==> HasKey(t.slots, key))
  {
    Get(t, key).Some?
  }

  // ---------------------------------------------------------------------
  // Insertion (hash_table_insert_unbalanced)
  // ---------------------------------------------------------------------

  /** Insertion stops at a slot that holds `key` or is `Empty` or `Deleted`. */
  predicate Claimable<V>(s: Slot<V>, key: nat)
  {
    HoldsKey(s, key) || s.Empty? || s.Deleted?
  }

  /** Step `n` is the first claimable step from `i` on. */
  predicate ClaimableFrom<V>(slots: seq<Slot<V>>, key: nat, i: nat, n: nat)
  {
    && i <= n < |slots|
    && Claimable(At(slots, key, n), key)
    && forall e :: i <= e < n ==> !Claimable(At(slots, key, e), key)
  }

  /** The insertion loop from step `i`. */
  function InsertStep<V>(slots: seq<Slot<V>>, key: nat, i: nat): (r: Option<nat>)
    ensures r.Some? ==> ClaimableFrom(slots, key, i, r.value)
    ensures r.None? ==> forall e :: i <= e < |slots| ==> !Claimable(At(slots, key, e), key)
    decreases |slots| - i
  {
    if i >= |slots| then None
    else if HoldsKey(At(slots, key, i), key) then Some(i)
    else if At(slots, key, i).Empty? || At(slots, key, i).Deleted? then Some(i)
    else InsertStep(slots, key, i + 1)
  }

  /**
    The placement part of insertion: overwrite the value of the first slot
    holding `key`, or claim the first `Empty` or `Deleted` slot and count
    one more item, whichever the walk meets first. `None` is the fatal
    assertion reached when the walk meets neither, which happens exactly
    when every slot is busy with another key.
   */
  function Place<V>(t: Table<V>, key: nat, value: V): (r: Option<Table<V>>)
    ensures r.None? <==> forall c :: 0 <= c < |t.slots| ==> t.slots[c].Busy? && t.slots[c].key != key
    ensures r.Some? ==> exists n :: (
      && ClaimableFrom(t.slots, key, 0, n)
      && r.value.slots == t.slots[Probe(Hash(key), n, |t.slots|) := Busy(key, value)]
      && r.value.count == if At(t.slots, key, n).Busy? then t.count else t.count + 1)
    ensures r.Some? ==> |r.value.slots| == |t.slots| && t.count <= r.value.count <= t.count + 1
    ensures r.Some? && Counted(t) ==> Counted(r.value)
    ensures r.Some? && Reachable(t.slots) ==> Reachable(r.value.slots)
    ensures r.Some? && NoDeleted(t.slots) ==> NoDeleted(r.value.slots)
  {
    var s := t.slots;
    match InsertStep(s, key, 0)
    case None =>
      NothingClaimable(s, key);
      None
    case Some(n) =>
      var c := Probe(Hash(key), n, |s|);
      ClaimKeepsInvariants(t, key, value, n);
      if s[c].Busy? then Some(Table(s[c := Busy(key, value)], t.count))
      else Some(Table(s[c := Busy(key, value)], t.count + 1))
  }

  /** Writing `key` at its first claimable step keeps the count, the lookup
      invariant and the absence of tombstones. */
  lemma ClaimKeepsInvariants<V>(t: Table<V>, key: nat, value: V, n: nat)
    requires ClaimableFrom(t.slots, key, 0, n)
    ensures var s := t.slots;
            var c := Probe(Hash(key), n, |s|);
            var r := Table(s[c := Busy(key, value)], if s[c].Busy? then t.count else t.count + 1);
            && (Counted(t) ==> Counted(r))
            && (Reachable(s) ==> Reachable(r.slots))
            && (NoDeleted(s) ==> NoDeleted(r.slots))
  {
    var s := t.slots;
    var c := Probe(Hash(key), n, |s|);
    BusyCountUpdate(s, c, Busy(key, value));
    OffsetOfProbe(Hash(key), n, |s|);
    assert StepOf(s, key, c) == n;
    assert ClearBefore(s, key, n);
    if Reachable(s) {
      ReachableUpdate(s, c, Busy(key, value));
    }
  }

  /** A walk with no claimable step means every slot is busy with another key. */
  lemma NothingClaimable<V>(s: seq<Slot<V>>, key: nat)
    requires forall e :: 0 <= e < |s| ==> !Claimable(At(s, key, e), key)
    ensures forall c :: 0 <= c < |s| ==> s[c].Busy? && s[c].key != key
  {
    forall c | 0 <= c < |s|
      ensures s[c].Busy? && s[c].key != key
    {
      assert !Claimable(At(s, key, StepOf(s, key, c)), key);
    }
  }

  /** A table with a non-busy slot always has room. */
  lemma PlaceSucceeds<V>(t: Table<V>, key: nat, value: V)
    requires Counted(t) && t.count < |t.slots|
    ensures Place(t, key, value).Some?
  {
    if Place(t, key, value).None? {
      AllBusyCount(t.slots);
    }
  }

  /**
    In a table without tombstones that satisfies the lookup invariant,
    placement overwrites the slot already holding the key if there is one,
    so keys stay unique.
   */
  lemma PlaceKeepsUnique<V>(t: Table<V>, key: nat, value: V)
    requires Place(t, key, value).Some?
    requires Reachable(t.slots) && NoDeleted(t.slots) && UniqueKeys(t.slots)
    ensures UniqueKeys(Place(t, key, value).value.slots)
  {
    var s := t.slots;
    var n := InsertStep(s, key, 0).value;
    var c0 := Probe(Hash(key), n, |s|);
    if !s[c0].Busy? {
      forall d | 0 <= d < |s| && s[d].Busy?
        ensures s[d].key != key
      {
        if s[d].key == key {
          var m := StepOf(s, key, d);
          assert ClearBefore(s, key, m);
          assert Claimable(At(s, key, m), key);
        }
      }
    }
  }

  /**
    hash_table_insert_unbalanced: grow first when the table is full, then
    place. The growth leaves room, so the fatal assertion is unreachable.
   */
  function InsertUnbalanced<V>(t: Table<V>, key: nat, value: V): (r: Table<V>)
    requires |t.slots| > 0 && Counted(t)
    ensures Counted(r) && |r.slots| >= |t.slots|
    ensures Reachable(t.slots) ==> Reachable(r.slots)
    ensures t.count < |t.slots| ==> |r.slots| == |t.slots| && t.count <= r.count <= t.count + 1
    ensures t.count < |t.slots| ==> Place(t, key, value) == Some(r)
    ensures t.count >= |t.slots| ==> |r.slots| == NextPrime(|t.slots| * 2)
  {
    if t.count >= |t.slots| then
      var t1 := Resize(t, NextPrime(|t.slots| * 2));
      PlaceSucceeds(t1, key, value);
      Place(t1, key, value).value
    else
      PlaceSucceeds(t, key, value);
      Place(t, key, value).value
  }

  // ---------------------------------------------------------------------
  // Resizing (hash_table_resize)
  // ---------------------------------------------------------------------

  /** hash_table_new: every slot `Empty` and no items. */
  function New<V>(capacity: nat): (t: Table<V>)
    ensures |t.slots| == capacity && t.count == 0
    ensures Counted(t) && Reachable(t.slots) && NoDeleted(t.slots) && UniqueKeys(t.slots)
    ensures forall key :: !HasKey(t.slots, key)
  {
    var t := Table(seq(capacity, _ => Empty), 0);
    NoneBusyCount(t.slots);
    t
  }

  /**
    The re-insertion loop of a resize: insert `items` in order into a fresh
    table of `capacity` slots. The count stays below the capacity, so the
    growth check at the head of insertion never fires here.
   */
  function Reinsert<V>(capacity: nat, items: seq<Item<V>>): (r: Table<V>)
    requires |items| <= capacity
    ensures |r.slots| == capacity && Counted(r) && r.count <= |items|
    ensures Reachable(r.slots) && NoDeleted(r.slots) && UniqueKeys(r.slots)
    decreases |items|
  {
    if |items| == 0 then New(capacity)
    else
      var t := Reinsert(capacity, items[..|items| - 1]);
      var it := items[|items| - 1];
      PlaceSucceeds(t, it.key, it.value);
      PlaceKeepsUnique(t, it.key, it.value);
      Place(t, it.key, it.value).value
  }

  /**
    hash_table_resize: a table of exactly `capacity` slots holding the busy
    items of `t`, re-inserted in slot order; tombstones are dropped.
   */
  function Resize<V>(t: Table<V>, capacity: nat): (r: Table<V>)
    requires Counted(t) && t.count <= capacity
    ensures |r.slots| == capacity && Counted(r) && r.count <= t.count
    ensures Reachable(r.slots) && NoDeleted(r.slots) && UniqueKeys(r.slots)
  {
    Reinsert(capacity, BusyItems(t.slots))
  }

  // ---------------------------------------------------------------------
  // Deletion (hash_table_delete_unbalanced)
  // ---------------------------------------------------------------------

  /**
    hash_table_delete_unbalanced: the first slot holding `key` on its walk,
    if the walk meets one before an `Empty` slot, becomes a tombstone and
    the count drops by one; otherwise the table is unchanged.
   */
  function DeleteUnbalanced<V>(t: Table<V>, key: nat): (r: Table<V>)
    requires Counted(t)
    ensures (forall n :: !Found(t.slots, key, n)) ==> r == t
    ensures forall n :: Found(t.slots, key, n) ==>
      r.slots == t.slots[Probe(Hash(key), n, |t.slots|) := Deleted] && r.count + 1 == t.count
    ensures Counted(r) && |r.slots| == |t.slots|
    ensures Reachable(t.slots) ==> Reachable(r.slots)
    ensures UniqueKeys(t.slots) ==> UniqueKeys(r.slots)
  {
    var s := t.slots;
    match FindStep(s, key, 0)
    case None =>
      NotFound(s, key);
      t
    case Some(n) =>
      var c := Probe(Hash(key), n, |s|);
      assert Found(s, key, n) && HoldsKey(s[c], key);
      FoundOnly(s, key, n);
      BusyCountUpdate(s, c, Deleted);
      UniqueUpdate(s, c, Deleted);
      ReachableAfterTombstone(s, c);
      Table(s[c := Deleted], t.count - 1)
  }

  // ---------------------------------------------------------------------
  // The load-factor policy and the balanced operations
  // ---------------------------------------------------------------------

  /**
    hash_table_balance_size: grow to `NextPrime(2 * capacity)` when more
    than half full; shrink to `NextPrime(capacity / 2)` when less than a
    quarter full and the capacity exceeds `2 * MIN_CAPACITY`; otherwise
    leave the table alone. Afterwards the table is at most half full.
   */
  function BalanceSize<V>(t: Table<V>): (r: Table<V>)
    requires Counted(t)
    ensures Counted(r) && r.count <= |r.slots| / 2 && r.count <= t.count
    ensures Reachable(t.slots) ==> Reachable(r.slots)
    ensures UniqueKeys(t.slots) ==> UniqueKeys(r.slots)
    ensures t.count > |t.slots| / 2 ==> |r.slots| == NextPrime(|t.slots| * 2) >= 2 * |t.slots|
    ensures t.count <= |t.slots| / 2 && t.count < |t.slots| / 4 && |t.slots| > 2 * MIN_CAPACITY ==>
      |r.slots| == NextPrime(|t.slots| / 2) >= |t.slots| / 2 >= MIN_CAPACITY
    ensures t.count <= |t.slots| / 2 && !(t.count < |t.slots| / 4 && |t.slots| > 2 * MIN_CAPACITY) ==>
      r == t
    ensures |r.slots| >= |t.slots| || |r.slots| >= MIN_CAPACITY
  {
    var cap := |t.slots|;
    if t.count > cap / 2 then
      Resize(t, NextPrime(cap * 2))
    else if t.count < cap / 4 && cap > MIN_CAPACITY * 2 then
      Resize(t, NextPrime(cap / 2))
    else
      t
  }

  /** hash_table_insert: rebalance, then insert. */
  function Insert<V>(t: Table<V>, key: nat, value: V): (r: Table<V>)
    requires |t.slots| > 0 && Counted(t)
    ensures Counted(r) && |r.slots| > 0 && r.count <= |r.slots| / 2 + 1
    ensures Reachable(t.slots) ==> Reachable(r.slots)
  {
    var t1 := BalanceSize(t);
    assert t1.count < |t1.slots|;
    InsertUnbalanced(t1, key, value)
  }

  /** hash_table_delete: delete, then rebalance. */
  function Delete<V>(t: Table<V>, key: nat): (r: Table<V>)
    requires Counted(t)
    ensures Counted(r) && r.count <= |r.slots| / 2 && r.count <= t.count
    ensures Reachable(t.slots) ==> Reachable(r.slots)
    ensures |t.slots| > 0 ==> |r.slots| > 0
  {
    BalanceSize(DeleteUnbalanced(t, key))
  }

  // ---------------------------------------------------------------------
  // Collection (hash_table_collect)
  // ---------------------------------------------------------------------

  /** The item of busy slot `c` sits at the position given by the number of
      busy slots before `c`. */
  lemma BusyItemsPosition<V>(s: seq<Slot<V>>, c: nat)
    requires c < |s| && s[c].Busy?
    ensures BusyCount(s[..c]) < |BusyItems(s)|
    ensures BusyItems(s)[BusyCount(s[..c])] == Item(s[c].key, s[c].value)
    decreases |s|
  {
    var n := |s|;
    if c < n - 1 {
      assert s[..n - 1][..c] == s[..c];
      BusyItemsPosition(s[..n - 1], c);
    } else {
      assert s[..n - 1] == s[..c];
    }
  }

  /** Every collected item comes from a busy slot. */
  lemma BusyItemsSource<V>(s: seq<Slot<V>>, i: nat)
    requires i < |BusyItems(s)|
    ensures exists c :: 0 <= c < |s| && s[c] == Busy(BusyItems(s)[i].key, BusyItems(s)[i].value)
    decreases |s|
  {
    var n := |s|;
    if i < |BusyItems(s[..n - 1])| {
      BusyItemsSource(s[..n - 1], i);
      var c :| 0 <= c < n - 1 && s[..n - 1][c] == Busy(BusyItems(s)[i].key, BusyItems(s)[i].value);
      assert s[c] == s[..n - 1][c];
    } else {
      assert s[n - 1] == Busy(BusyItems(s)[i].key, BusyItems(s)[i].value);
    }
  }

  /**
    hash_table_collect: the items of the busy slots, one per busy slot, in
    ascending slot order: the item of busy slot `c` is at the position given
    by the number of busy slots before `c`, and nothing else is collected.
   */
  method Collect<V>(t: Table<V>) returns (items: seq<Item<V>>)
    ensures items == BusyItems(t.slots)
    ensures |items| == BusyCount(t.slots)
    ensures Counted(t) ==> |items| == t.count
    ensures forall c :: 0 <= c < |t.slots| && t.slots[c].Busy? ==>
      BusyCount(t.slots[..c]) < |items| && items[BusyCount(t.slots[..c])] == Item(t.slots[c].key, t.slots[c].value)
    ensures forall i :: 0 <= i < |items| ==>
      exists c :: 0 <= c < |t.slots| && t.slots[c] == Busy(items[i].key, items[i].value)
  {
    items := [];
    var i := 0;
    while i < |t.slots|
      invariant i <= |t.slots|
      invariant items == BusyItems(t.slots[..i])
    {
      assert t.slots[..i + 1][..i] == t.slots[..i];
      if t.slots[i].Busy? {
        items := items + [Item(t.slots[i].key, t.slots[i].value)];
      }
      i := i + 1;
    }
    assert t.slots[..i] == t.slots;
    forall c | 0 <= c < |t.slots| && t.slots[c].Busy?
      ensures BusyCount(t.slots[..c]) < |items| && items[BusyCount(t.slots[..c])] == Item(t.slots[c].key, t.slots[c].value)
    {
      BusyItemsPosition(t.slots, c);
    }
    forall j | 0 <= j < |items|
      ensures exists c :: 0 <= c < |t.slots| && t.slots[c] == Busy(items[j].key, items[j].value)
    {
      BusyItemsSource(t.slots, j);
    }
  }
}

=== FILE: primes.dfy ===
/**
  The capacity helper `next_prime`: starting at `start`, return the first
  candidate that no `j` in `2 ..= end` divides, where `end` is one more than
  the square root of `start` (not of the candidate). The float square root
  of the source is replaced by the integer floor square root.
 */
module Primes {
  import opened Arith

  /** Floor square root, counting up from `r`. */
  function SqrtFrom(n: nat, r: nat): (s: nat)
    requires r * r <= n
    ensures s * s <= n < (s + 1) * (s + 1)
    decreases n - r
  {
    if (r + 1) * (r + 1) <= n then
      assert r + 1 <= (r + 1) * (r + 1);
      SqrtFrom(n, r + 1)
    else
      r
  }

  /** The largest `s` with `s * s <= n`. */
  function Sqrt(n: nat): (s: nat)
    ensures s * s <= n < (s + 1) * (s + 1)
  {
    SqrtFrom(n, 0)
  }

  /** The bound of the inner trial-division loop, fixed from `start`. */
  function TrialEnd(start: nat): nat
  {
    Sqrt(start) + 1
  }

  /** Whether some `d` with `j <= d <= end` divides `i`: the inner loop breaking. */
  function HasDivisorFrom(i: nat, j: nat, end: nat): (b: bool)
    requires j >= 2
    ensures b <==> exists d :: j <= d <= end && i % d == 0
    decreases end + 1 - j
  {
    if j > end then false
    else if i % j == 0 then true
    else HasDivisorFrom(i, j + 1, end)
  }

  /** The candidate survives trial division by `2 ..= end`. */
  predicate PassesTrial(i: nat, end: nat)
  {
    !HasDivisorFrom(i, 2, end)
  }

  function Fact(n: nat): (f: nat)
    ensures f >= 1
  {
    if n == 0 then 1 else n * Fact(n - 1)
  }

  /** Every `d` in `1 ..= n` divides `n!`. */
  lemma FactMultiple(n: nat, d: nat) returns (q: nat)
    requires 1 <= d <= n
    ensures Fact(n) == d * q
  {
    if d == n {
      q := Fact(n - 1);
    } else {
      var q' := FactMultiple(n - 1, d);
      q := n * q';
      assert Fact(n) == n * (d * q');
    }
  }

  /** A candidate no later than this one always passes, so the search stops. */
  function Witness(start: nat): (w: nat)
    ensures w >= start
  {
    start * Fact(TrialEnd(start)) + 1
  }

  lemma WitnessPasses(start: nat)
    ensures PassesTrial(Witness(start), TrialEnd(start))
  {
    var end := TrialEnd(start);
    var w := Witness(start);
    forall d | 2 <= d <= end
      ensures w % d != 0
    {
      var q := FactMultiple(end, d);
      assert w == (start * q) * d + 1;
      ModOfMultiplePlus(w, d, start * q, 1);
    }
  }

  /** The outer loop, from candidate `i` on. */
  function NextPrimeFrom(start: nat, i: nat): (p: nat)
    requires start <= i <= Witness(start)
    ensures i <= p <= Witness(start)
    ensures PassesTrial(p, TrialEnd(start))
    ensures forall k :: i <= k < p ==> !PassesTrial(k, TrialEnd(start))
    decreases Witness(start) - i
  {
    if PassesTrial(i, TrialEnd(start)) then i
    else
      WitnessPasses(start);
      NextPrimeFrom(start, i + 1)
  }

  /**
    The capacity helper: the first candidate at or above `start` that no
    `d` in `2 ..= Sqrt(start) + 1` divides. It is not always the smallest
    prime: the result is 0 for 0, 1 for 1 and 3 for 2.
   */
  function NextPrime(start: nat): (p: nat)
    ensures p >= start
    ensures forall d :: 2 <= d <= TrialEnd(start) ==> p % d != 0
    ensures forall k :: start <= k < p ==> !PassesTrial(k, TrialEnd(start))
  {
    NextPrimeFrom(start, start)
  }

  /**
    Trial division up to `end` certifies a prime below `(end + 1) * (end + 1)`:
    a composite number that small has a factor no larger than `end`.
   */
  lemma TrialCertifiesPrime(p: nat, end: nat)
    requires 2 <= p < (end + 1) * (end + 1)
    requires forall d :: 2 <= d <= end ==> p % d != 0
    ensures forall d :: 2 <= d < p ==> p % d != 0
  {
    forall d | 2 <= d < p
      ensures p % d != 0
    {
      if p % d == 0 {
        var q := p / d;
        assert p == q * d;
        if q <= 1 {
          MulMonotone(q, d, 1, d);
        } else if q <= end {
          ModOfMultiplePlus(p, q, d, 0);
        } else {
          MulMonotone(end + 1, end + 1, q, d);
        }
      }
    }
  }

  /**
    When the capacity helper's result stays below the square of one more
    than its trial bound, it is a genuine prime.
   */
  lemma NextPrimeIsPrime(start: nat)
    requires 2 <= NextPrime(start) < (TrialEnd(start) + 1) * (TrialEnd(start) + 1)
    ensures forall d :: 2 <= d < NextPrime(start) ==> NextPrime(start) % d != 0
  {
    TrialCertifiesPrime(NextPrime(start), TrialEnd(start));
  }

  /** Doubling a capacity of 31 asks for `NextPrime(62)`, which is the prime 67. */
  lemma NextPrimeDoubling31()
    ensures NextPrime(62) == 67
    ensures forall d :: 2 <= d < 67 ==> 67 % d != 0
  {
    var s := Sqrt(62);
    if s >= 8 {
      MulMonotone(8, 8, s, s);
    }
    assert TrialEnd(62) == 8;
    var p := NextPrime(62);
    assert p % 2 != 0 && p % 3 != 0 && p % 5 != 0;
    assert PassesTrial(67, 8);
    assert p == 67;
    NextPrimeIsPrime(62);
  }

  /** The smallest starts: 0 and 1 come back unchanged and 2 is skipped. */
  lemma NextPrimeSmallStarts()
    ensures NextPrime(0) == 0 && NextPrime(1) == 1 && NextPrime(2) == 3
  {
    assert TrialEnd(0) == 1 && TrialEnd(1) == 2 && TrialEnd(2) == 2;
    assert PassesTrial(3, 2);
  }
}

=== FILE: probing.dfy ===
/** Linear probing modulo the table capacity, and the arithmetic it rests on. */
module Probing {
  import opened Arith


  /** The hash function is the identity. */
  function Hash(key: nat): nat
  {
    key
  }

  /** The slot visited at step `i` of the walk that starts at `start`. */
  function Probe(start: nat, i: nat, capacity: nat): (c: nat)
    requires capacity > 0
    ensures c < capacity
  {
    (start + i) % capacity
  }

  /** The step at which the walk from `start` reaches slot `c`. */
  function Offset(start: nat, c: nat, capacity: nat): (i: nat)
    requires capacity > 0 && c < capacity
    ensures i < capacity
  {
    (c + capacity - start % capacity) % capacity
  }

  /** Within one lap the walk is the home slot plus `i`, wrapped once. */
  lemma ProbeWithinLap(start: nat, i: nat, capacity: nat)
    requires capacity > 0 && i < capacity
    ensures var h := start % capacity;
            Probe(start, i, capacity) == if h + i < capacity then h + i else h + i - capacity
  {
    var h := start % capacity;
    var q := start / capacity;
    assert start == q * capacity + h;
    if h + i < capacity {
      ModOfMultiplePlus(start + i, capacity, q, h + i);
    } else {
      ModOfMultiplePlus(start + i, capacity, q + 1, h + i - capacity);
    }
  }

  /** Two steps of one lap never visit the same slot. */
  lemma ProbeInjective(start: nat, i: nat, j: nat, capacity: nat)
    requires capacity > 0 && i < capacity && j < capacity
    requires Probe(start, i, capacity) == Probe(start, j, capacity)
    ensures i == j
  {
    ProbeWithinLap(start, i, capacity);
    ProbeWithinLap(start, j, capacity);
  }

  /** Every slot is visited within one lap, at step `Offset`. */
  lemma ProbeCovers(start: nat, c: nat, capacity: nat)
    requires capacity > 0 && c < capacity
    ensures Probe(start, Offset(start, c, capacity), capacity) == c
  {
    var h := start % capacity;
    var i := Offset(start, c, capacity);
    if c >= h {
      ModOfMultiplePlus(c + capacity - h, capacity, 1, c - h);
    } else {
      ModOfMultiplePlus(c + capacity - h, capacity, 0, c + capacity - h);
    }
    ProbeWithinLap(start, i, capacity);
  }

  /** `Offset` inverts the walk: the slot visited at step `i` is reached at step `i`. */
  lemma OffsetOfProbe(start: nat, i: nat, capacity: nat)
    requires capacity > 0 && i < capacity
    ensures Offset(start, Probe(start, i, capacity), capacity) == i
  {
    var c := Probe(start, i, capacity);
    ProbeCovers(start, c, capacity);
    ProbeInjective(start, i, Offset(start, c, capacity), capacity);
  }
}

=== FILE: table_props.dfy ===
/**
  Properties relating several table operations: lookups after inserts and
  deletes, the key/value map a table represents, and what resizing and the
  balanced operations do to it.
 */
module TableProps {
  import opened Wrappers
  import opened Probing
  import opened HashTable

  // ---------------------------------------------------------------------
  // The abstract map of a table
  // ---------------------------------------------------------------------

  /** The map built by storing `items` in order; a later item wins. */
  function ToMap<V>(items: seq<Item<V>>): (m: map<nat, V>)
    ensures forall k :: k in m <==> exists i :: 0 <= i < |items| && items[i].key == k
    decreases |items|
  {
    if |items| == 0 then map[]
    else
      var last := items[|items| - 1];
      var m := ToMap(items[..|items| - 1]);
      assert forall i :: 0 <= i < |items| - 1 ==> items[..|items| - 1][i] == items[i];
      m[last.key := last.value]
  }

  /** The contents of a table: its busy items, read in slot order. */
  function Contents<V>(slots: seq<Slot<V>>): map<nat, V>
  {
    ToMap(BusyItems(slots))
  }

  function Lookup<V>(m: map<nat, V>, key: nat): Option<V>
  {
    if key in m then Some(m[key]) else None
  }

  predicate DistinctKeys<V>(items: seq<Item<V>>)
  {
    forall i, j :: 0 <= i < |items| && 0 <= j < |items| && i != j ==> items[i].key != items[j].key
  }

  /** With distinct keys the map holds every item's own value. */
  lemma {:induction false} ToMapDistinct<V>(items: seq<Item<V>>, i: nat)
    requires DistinctKeys(items) && i < |items|
    ensures ToMap(items)[items[i].key] == items[i].value
    decreases |items|
  {
    var n := |items|;
    if i < n - 1 {
      var pre := items[..n - 1];
      assert pre[i] == items[i];
      ToMapDistinct(pre, i);
    }
  }

  /** With distinct keys the map has one entry per item. */
  lemma {:induction false} ToMapSize<V>(items: seq<Item<V>>)
    requires DistinctKeys(items)
    ensures |ToMap(items)| == |items|
    decreases |items|
  {
    var n := |items|;
    if n > 0 {
      var pre := items[..n - 1];
      ToMapSize(pre);
      var last := items[n - 1];
      assert ToMap(items).Keys == ToMap(pre).Keys + {last.key};
    }
  }

  /** Busy slots with unique keys give collected items with distinct keys. */
  lemma BusyItemsDistinct<V>(s: seq<Slot<V>>)
    requires UniqueKeys(s)
    ensures DistinctKeys(BusyItems(s))
  {
    var items := BusyItems(s);
    forall i, j | 0 <= i < |items| && 0 <= j < |items| && i != j
      ensures items[i].key != items[j].key
    {
      BusyItemsSource(s, i);
      BusyItemsSource(s, j);
      var ci :| 0 <= ci < |s| && s[ci] == Busy(items[i].key, items[i].value);
      var cj :| 0 <= cj < |s| && s[cj] == Busy(items[j].key, items[j].value);
      if ci == cj {
        BusyItemsPosition(s, ci);
        BusySlotPositionUnique(s, ci, i);
        BusySlotPositionUnique(s, ci, j);
      }
    }
  }

  /** The only item taken from busy slot `c` is the one at its position. */
  lemma BusySlotPositionUnique<V>(s: seq<Slot<V>>, c: nat, i: nat)
    requires c < |s| && s[c].Busy? && i < |BusyItems(s)|
    requires forall c' :: 0 <= c' < |s| && s[c'] == Busy(BusyItems(s)[i].key, BusyItems(s)[i].value) ==> c' == c
    ensures i == BusyCount(s[..c])
    decreases |s|
  {
    var n := |s|;
    var pre := s[..n - 1];
    var item := BusyItems(s)[i];
    if i < |BusyItems(pre)| {
      BusyItemsSource(pre, i);
      var c' :| 0 <= c' < |pre| && pre[c'] == Busy(item.key, item.value);
      assert s[c'] == pre[c'];
      assert c' == c && c < n - 1;
      assert pre[..c] == s[..c];
      BusySlotPositionUnique(pre, c, i);
    } else {
      assert s[n - 1] == Busy(item.key, item.value);
      assert c == n - 1;
      assert pre == s[..c];
    }
  }

  /**
    With unique keys and the lookup invariant, lookup agrees with the
    contents map: the table represents that map.
   */
  lemma GetMatchesContents<V>(t: Table<V>, key: nat)
    requires Reachable(t.slots) && UniqueKeys(t.slots)
    ensures Get(t, key) == Lookup(Contents(t.slots), key)
  {
    var s := t.slots;
    var items := BusyItems(s);
    BusyItemsDistinct(s);
    match Get(t, key)
    case Some(v) =>
      var c :| 0 <= c < |s| && s[c] == Busy(key, v);
      BusyItemsPosition(s, c);
      ToMapDistinct(items, BusyCount(s[..c]));
    case None =>
      if key in Contents(s) {
        var i :| 0 <= i < |items| && items[i].key == key;
        BusyItemsSource(s, i);
      }
  }

  // ---------------------------------------------------------------------
  // Placement and insertion
  // ---------------------------------------------------------------------

  /** After placement the walk for `key` finds the new value, whatever
      tombstones or duplicates the table holds. */
  lemma PlaceThenGet<V>(t: Table<V>, key: nat, value: V)
    requires Place(t, key, value).Some?
    ensures Get(Place(t, key, value).value, key) == Some(value)
  {
    var s := t.slots;
    var n := InsertStep(s, key, 0).value;
    var c0 := Probe(Hash(key), n, |s|);
    var s' := Place(t, key, value).value.slots;
    assert s' == s[c0 := Busy(key, value)];
    forall e | 0 <= e < n
      ensures At(s', key, e) == At(s, key, e)
    {
      if Probe(Hash(key), e, |s|) == c0 {
        ProbeInjective(Hash(key), e, n, |s|);
      }
    }
    assert Found(s', key, n);
  }

  /**
    Placing `key` leaves the lookup of every other key unchanged, given the
    lookup invariant (a claimed `Empty` slot could otherwise extend a walk
    that used to stop there).
   */
  lemma PlaceKeepsOtherLookups<V>(t: Table<V>, key: nat, value: V, other: nat)
    requires Place(t, key, value).Some? && Reachable(t.slots) && other != key
    ensures Get(Place(t, key, value).value, other) == Get(t, other)
  {
    var s := t.slots;
    var t' := Place(t, key, value).value;
    var n := InsertStep(s, key, 0).value;
    var c0 := Probe(Hash(key), n, |s|);
    assert t'.slots == s[c0 := Busy(key, value)];
    forall m | Found(s, other, m)
      ensures Found(t'.slots, other, m) && At(t'.slots, other, m) == At(s, other, m)
    {
      WriteKeepsFound(s, c0, Busy(key, value), other, m);
    }
    if Get(t', other).Some? {
      var c :| 0 <= c < |t'.slots| && t'.slots[c] == Busy(other, Get(t', other).value);
      assert s[c] == t'.slots[c];
    }
  }

  /** A successful lookup of `other` stays where it was when a slot not
      holding `other` is overwritten by one that is neither `Empty` nor
      holds `other`. */
  lemma WriteKeepsFound<V>(s: seq<Slot<V>>, c0: nat, x: Slot<V>, other: nat, m: nat)
    requires c0 < |s| && !x.Empty? && !HoldsKey(x, other) && !HoldsKey(s[c0], other)
    requires Found(s, other, m)
    ensures Found(s[c0 := x], other, m) && At(s[c0 := x], other, m) == At(s, other, m)
  {
    var s' := s[c0 := x];
    forall e | 0 <= e < m
      ensures !HoldsKey(At(s', other, e), other) && !At(s', other, e).Empty?
    {
      assert At(s', other, e) == if Probe(Hash(other), e, |s|) == c0 then x else At(s, other, e);
    }
  }

  /** Round trip: after an unbalanced insert, the lookup returns the value. */
  lemma InsertThenGet<V>(t: Table<V>, key: nat, value: V)
    requires |t.slots| > 0 && Counted(t)
    ensures Get(InsertUnbalanced(t, key, value), key) == Some(value)
  {
    var t1 := if t.count >= |t.slots| then Resize(t, Primes.NextPrime(|t.slots| * 2)) else t;
    PlaceSucceeds(t1, key, value);
    PlaceThenGet(t1, key, value);
  }

  /**
    In a table without tombstones, insertion claims a new slot exactly when
    the key is not stored yet.
   */
  lemma PlaceCountsNewKeys<V>(t: Table<V>, key: nat, value: V)
    requires Place(t, key, value).Some? && Reachable(t.slots) && NoDeleted(t.slots)
    ensures Place(t, key, value).value.count == if HasKey(t.slots, key) then t.count else t.count + 1
  {
    var s := t.slots;
    var n := InsertStep(s, key, 0).value;
    if HasKey(s, key) {
      var d :| 0 <= d < |s| && HoldsKey(s[d], key);
      var m := StepOf(s, key, d);
      assert ClearBefore(s, key, m);
      assert Claimable(At(s, key, m), key);
      assert n <= m;
    }
  }

  /** Writing a claimable slot at the first claimable step keeps that step first. */
  lemma WriteKeepsClaimable<V>(s: seq<Slot<V>>, key: nat, n: nat, x: Slot<V>)
    requires ClaimableFrom(s, key, 0, n) && Claimable(x, key)
    ensures ClaimableFrom(s[Probe(Hash(key), n, |s|) := x], key, 0, n)
  {
    var s' := s[Probe(Hash(key), n, |s|) := x];
    forall e | 0 <= e < n
      ensures At(s', key, e) == At(s, key, e)
    {
      if Probe(Hash(key), e, |s|) == Probe(Hash(key), n, |s|) {
        ProbeInjective(Hash(key), e, n, |s|);
      }
    }
  }

  /**
    Placing the same key twice counts it once, in every table: the second
    walk stops at the slot the first one wrote, whatever tombstones or
    duplicates lie elsewhere.
   */
  lemma PlaceTwiceKeepsCount<V>(t: Table<V>, key: nat, v1: V, v2: V)
    requires Place(t, key, v1).Some?
    ensures Place(Place(t, key, v1).value, key, v2).Some?
    ensures Place(Place(t, key, v1).value, key, v2).value.count == Place(t, key, v1).value.count
  {
    var t1 := Place(t, key, v1).value;
    var n :| && ClaimableFrom(t.slots, key, 0, n)
             && t1.slots == t.slots[Probe(Hash(key), n, |t.slots|) := Busy(key, v1)];
    WriteKeepsClaimable(t.slots, key, n, Busy(key, v1));
    assert At(t1.slots, key, n) == Busy(key, v1);
    var r := Place(t1, key, v2);
    assert r.Some? by {
      assert t1.slots[Probe(Hash(key), n, |t1.slots|)].key == key;
    }
    var m :| && ClaimableFrom(t1.slots, key, 0, m)
             && r.value.count == if At(t1.slots, key, m).Busy? then t1.count else t1.count + 1;
    ClaimableUnique(t1.slots, key, n, m);
  }

  /**
    An unbalanced insert into a table with unique keys stores `value` under
    `key` and leaves every other key as it was.
   */
  lemma InsertUnbalancedLookups<V>(t: Table<V>, key: nat, value: V, other: nat)
    requires Valid(t) && UniqueKeys(t.slots)
    ensures Get(InsertUnbalanced(t, key, value), other) == Lookup(Contents(t.slots)[key := value], other)
  {
    var t1 := if t.count >= |t.slots| then Resize(t, Primes.NextPrime(|t.slots| * 2)) else t;
    PlaceSucceeds(t1, key, value);
    if other == key {
      PlaceThenGet(t1, key, value);
    } else {
      PlaceKeepsOtherLookups(t1, key, value, other);
      GetMatchesContents(t, other);
      if t.count >= |t.slots| {
        ResizeContents(t, Primes.NextPrime(|t.slots| * 2), other);
      }
    }
  }

  /** Without tombstones, an unbalanced insert keeps keys unique. */
  lemma InsertUnbalancedKeepsUnique<V>(t: Table<V>, key: nat, value: V)
    requires Valid(t) && UniqueKeys(t.slots) && NoDeleted(t.slots)
    ensures UniqueKeys(InsertUnbalanced(t, key, value).slots)
    ensures NoDeleted(InsertUnbalanced(t, key, value).slots)
  {
    var t1 := if t.count >= |t.slots| then Resize(t, Primes.NextPrime(|t.slots| * 2)) else t;
    PlaceSucceeds(t1, key, value);
    PlaceKeepsUnique(t1, key, value);
  }

  // ---------------------------------------------------------------------
  // Resizing
  // ---------------------------------------------------------------------

  /** Re-inserting items builds a table whose lookups follow their map. */
  lemma {:induction false} ReinsertLookups<V>(capacity: nat, items: seq<Item<V>>, key: nat)
    requires |items| <= capacity
    ensures Get(Reinsert(capacity, items), key) == Lookup(ToMap(items), key)
    decreases |items|
  {
    if |items| > 0 {
      var pre := items[..|items| - 1];
      var it := items[|items| - 1];
      var t := Reinsert(capacity, pre);
      PlaceSucceeds(t, it.key, it.value);
      if key == it.key {
        PlaceThenGet(t, it.key, it.value);
      } else {
        PlaceKeepsOtherLookups(t, it.key, it.value, key);
        ReinsertLookups(capacity, pre, key);
      }
    }
  }

  /** Re-inserting items stores one slot per distinct key. */
  lemma {:induction false} ReinsertCount<V>(capacity: nat, items: seq<Item<V>>)
    requires |items| <= capacity
    ensures Reinsert(capacity, items).count == |ToMap(items)|
    decreases |items|
  {
    if |items| > 0 {
      var pre := items[..|items| - 1];
      var it := items[|items| - 1];
      var t := Reinsert(capacity, pre);
      PlaceSucceeds(t, it.key, it.value);
      PlaceCountsNewKeys(t, it.key, it.value);
      ReinsertCount(capacity, pre);
      ReinsertLookups(capacity, pre, it.key);
      if it.key in ToMap(pre) {
        assert ToMap(items).Keys == ToMap(pre).Keys;
      } else {
        assert ToMap(items).Keys == ToMap(pre).Keys + {it.key};
      }
    }
  }

  /** Resizing keeps the contents: the new table's lookups follow the old
      table's busy items read in slot order. */
  lemma ResizeContents<V>(t: Table<V>, capacity: nat, key: nat)
    requires Counted(t) && t.count <= capacity
    ensures Get(Resize(t, capacity), key) == Lookup(Contents(t.slots), key)
  {
    ReinsertLookups(capacity, BusyItems(t.slots), key);
  }

  /** With unique keys, resizing keeps every lookup and the count. */
  lemma ResizeKeepsTable<V>(t: Table<V>, capacity: nat, key: nat)
    requires Counted(t) && t.count <= capacity && Reachable(t.slots) && UniqueKeys(t.slots)
    ensures Get(Resize(t, capacity), key) == Get(t, key)
    ensures Resize(t, capacity).count == t.count
  {
    ResizeContents(t, capacity, key);
    GetMatchesContents(t, key);
    ReinsertCount(capacity, BusyItems(t.slots));
    BusyItemsDistinct(t.slots);
    ToMapSize(BusyItems(t.slots));
  }

  // ---------------------------------------------------------------------
  // Deletion
  // ---------------------------------------------------------------------

  /** Deleting `key` leaves the lookup of every other key unchanged; the
      tombstone keeps walks going exactly as the busy slot did. */
  lemma DeleteKeepsOtherLookups<V>(t: Table<V>, key: nat, other: nat)
    requires Counted(t) && other != key
    ensures Get(DeleteUnbalanced(t, key), other) == Get(t, other)
  {
    var s := t.slots;
    var s' := DeleteUnbalanced(t, key).slots;
    if s' != s {
      var n := FindStep(s, key, 0).value;
      assert Found(s, key, n);
      var c0 := Probe(Hash(key), n, |s|);
      assert s' == s[c0 := Deleted];
      assert s'[c0 := s[c0]] == s;
      forall m | Found(s, other, m)
        ensures Found(s', other, m) && At(s', other, m) == At(s, other, m)
      {
        WriteKeepsFound(s, c0, Deleted, other, m);
      }
      forall m | Found(s', other, m)
        ensures Found(s, other, m)
      {
        WriteKeepsFound(s', c0, s[c0], other, m);
      }
    }
  }

  /** With unique keys, a deleted key is gone: no slot holds it and the
      lookup fails. */
  lemma DeleteThenAbsent<V>(t: Table<V>, key: nat)
    requires Counted(t) && Reachable(t.slots) && UniqueKeys(t.slots)
    ensures !HasKey(DeleteUnbalanced(t, key).slots, key)
    ensures Get(DeleteUnbalanced(t, key), key) == None
  {
    var s := t.slots;
    var s' := DeleteUnbalanced(t, key).slots;
    if s' != s {
      var n := FindStep(s, key, 0).value;
      assert Found(s, key, n);
      var c0 := Probe(Hash(key), n, |s|);
      assert s' == s[c0 := Deleted];
    } else {
      assert Get(t, key) == None;
    }
  }

  /** With unique keys, deleting twice is deleting once. */
  lemma DeleteIdempotent<V>(t: Table<V>, key: nat)
    requires Counted(t) && Reachable(t.slots) && UniqueKeys(t.slots)
    ensures DeleteUnbalanced(DeleteUnbalanced(t, key), key) == DeleteUnbalanced(t, key)
  {
    DeleteThenAbsent(t, key);
  }

  // ---------------------------------------------------------------------
  // The balanced operations
  // ---------------------------------------------------------------------

  /** With unique keys, rebalancing keeps every lookup. */
  lemma BalanceKeepsLookups<V>(t: Table<V>, key: nat)
    requires Counted(t) && Reachable(t.slots) && UniqueKeys(t.slots)
    ensures Get(BalanceSize(t), key) == Get(t, key)
    ensures BalanceSize(t).count == t.count
  {
    var cap := |t.slots|;
    if t.count > cap / 2 {
      ResizeKeepsTable(t, Primes.NextPrime(cap * 2), key);
    } else if t.count < cap / 4 && cap > MIN_CAPACITY * 2 {
      ResizeKeepsTable(t, Primes.NextPrime(cap / 2), key);
    }
  }

  /** After rebalancing, insertion never needs its own growth step. */
  lemma BalancedInsertPlaces<V>(t: Table<V>, key: nat, value: V)
    requires |t.slots| > 0 && Counted(t)
    ensures Place(BalanceSize(t), key, value).Some?
    ensures Insert(t, key, value) == Place(BalanceSize(t), key, value).value
  {
    PlaceSucceeds(BalanceSize(t), key, value);
  }

  /** Round trip through the balanced insert: the lookup returns the value,
      whatever tombstones or duplicates the table holds. */
  lemma InsertRoundTrip<V>(t: Table<V>, key: nat, value: V)
    requires |t.slots| > 0 && Counted(t)
    ensures Get(Insert(t, key, value), key) == Some(value)
  {
    BalancedInsertPlaces(t, key, value);
    PlaceThenGet(BalanceSize(t), key, value);
  }

  /**
    hash_table_insert on a table with unique keys: the represented map is
    updated at `key` and nothing else changes.
   */
  lemma InsertLookups<V>(t: Table<V>, key: nat, value: V, other: nat)
    requires Valid(t) && UniqueKeys(t.slots)
    ensures Get(Insert(t, key, value), other) == if other == key then Some(value) else Get(t, other)
  {
    var t1 := BalanceSize(t);
    BalancedInsertPlaces(t, key, value);
    if other == key {
      PlaceThenGet(t1, key, value);
    } else {
      PlaceKeepsOtherLookups(t1, key, value, other);
      BalanceKeepsLookups(t, other);
    }
  }

  /**
    hash_table_delete on a table with unique keys: `key` becomes absent and
    nothing else changes.
   */
  lemma DeleteLookups<V>(t: Table<V>, key: nat, other: nat)
    requires Counted(t) && Reachable(t.slots) && UniqueKeys(t.slots)
    ensures Get(Delete(t, key), other) == if other == key then None else Get(t, other)
  {
    var t1 := DeleteUnbalanced(t, key);
    BalanceKeepsLookups(t1, other);
    if other == key {
      DeleteThenAbsent(t, key);
    } else {
      DeleteKeepsOtherLookups(t, key, other);
    }
  }
}

=== FILE: wrappers.dfy ===
/** The optional value returned by lookups and by the probe searches. */
module Wrappers {

  datatype Option<+T> = None | Some(value: T)
}
